=== FILE: README.md ===
# WinQuote saved-quote logic in Dafny

WinQuote is an Android app that fetches a random quote, shows it, and lets the
user save, share and delete quotes. Almost all of it is UI and platform glue.
This project models the logic inside that glue:

- the **saved-quote codec**: a quote is stored as `text + "|" + author` and read
  back with Java's `split("\\|")`, keeping only entries that split into exactly
  two pieces (`JavaSplit`, `QuoteCodec`);
- the **saved-quote store**: a `set<string>` in one preferences slot, with the
  main screen's save (duplicate check, `{""}` default for an absent slot) and
  the saved-quotes screen's remove (`QuoteStore`, `StoreHistory`);
- the **main screen**: current quote and author, the two text views, the
  refresh button and progress bar, and pure transitions for the fetch
  callbacks and the refresh, save and share buttons (`MainScreen`);
- the **saved-quotes screen**: loading the set into a list, the adapter's rows,
  and delete followed by reload (`SavedList`);
- the user-visible **strings**: display lines, share text, fetch-failure
  message (`Format`).

Java's `split` is modelled as the JDK documents it: cut at every separator,
then drop trailing empty strings, except that a string with no separator comes
back as `[s]` (so `""` gives `[""]`). `JavaSplit.SplitIsRawSplitOfStripped`
proves an independent description: split the string with its trailing
separators removed. Some consequences proved here: `""`, and `"t|"` for a
separator-free `t`, are dropped on load; `"|a"` loads with an empty text; `"a|b|"` loads as
`("a","b")`, whose encoding `"a|b"` is a different string, so deleting that
row never removes the `"a|b|"` entry, and the row comes back on reload.

Two behaviours of the code are modelled as written:

- A successful HTTP response whose first element is an object overwrites the
  current quote and author *before* they are validated. After an "Invalid
  quote data received" response, the screen still shows the old quote but
  save and share act on the new fields. A quote with an empty author saved
  this way is stored as `"text|"`. When the text holds no separator, the
  saved-quotes screen never lists that entry
  (`MainScreen.InvalidResponseSavesUnlistedEntry`).
- Deleting is not index-based. Each row's delete button forwards the `Quote`
  bound to that row, and no out-of-range error exists (`SavedList.DeleteRow`).

The response body is abstracted to a sequence of `Json` values. Only element 0
is inspected, as an object with string fields (`optString(key, "")`) or as
something else. A transport failure is abstracted to an optional HTTP status.
Connectivity is a boolean input. The hash-set iteration order of the stored
set is an arbitrary enumeration (`SavedList.Enumerates`). The list built from
it is `SavedList.DecodeAll`, the codec's `Decode` plugged into
`SavedList.Collect`, which keeps every entry a reader accepts, in order. `MainScreen.Screen`
has one field that the code does not hold: `pending` counts requests whose
callback has not yet run.

## Model

| member | source | states |
|---|---|---|
| JavaSplit.RawSplit | app/src/main/java/com/example/winquote/SavedQuotesActivity.java:56 | cutting at every separator gives at least one piece, and no piece contains the separator |
| JavaSplit.DropTrailing | app/src/main/java/com/example/winquote/SavedQuotesActivity.java:56 | the result is the longest prefix that does not end in the padding, and only padding follows it (used for split's trailing-empty removal) |
| JavaSplit.Split | app/src/main/java/com/example/winquote/SavedQuotesActivity.java:56 | no piece contains the separator; a string without separators is one piece; otherwise the last piece, if any, is non-empty |
| JavaSplit.JoinRawSplit | app/src/main/java/com/example/winquote/SavedQuotesActivity.java:56 | joining the pieces with the separator gives the string back |
| JavaSplit.RawSplitJoin | app/src/main/java/com/example/winquote/SavedQuotesActivity.java:56 | splitting a join of separator-free pieces gives the pieces back |
| JavaSplit.RawSplitConcat | app/src/main/java/com/example/winquote/SavedQuotesActivity.java:56 | the pieces of x, a separator, then y are the pieces of x followed by the pieces of y |
| JavaSplit.SplitIsRawSplitOfStripped | app/src/main/java/com/example/winquote/SavedQuotesActivity.java:56 | Java's split equals the raw split of the string with trailing separators removed, or no pieces for a non-empty all-separator string |
| JavaSplit.SplitOfSeparatorsOnly | app/src/main/java/com/example/winquote/SavedQuotesActivity.java:56 | a non-empty run of separators splits into no pieces |
| JavaSplit.SplitOfPadded | app/src/main/java/com/example/winquote/SavedQuotesActivity.java:56 | separators after a string that does not end in one add no pieces to the split |
| QuoteCodec.Encode | app/src/main/java/com/example/winquote/MainActivity.java:242 | the stored entry is the text, one separator, then the author |
| QuoteCodec.Decode | app/src/main/java/com/example/winquote/SavedQuotesActivity.java:55-59 | an entry is kept only if it splits into two pieces; a kept quote has separator-free fields and a non-empty author |
| QuoteCodec.DecodeIff | app/src/main/java/com/example/winquote/SavedQuotesActivity.java:56-58 | an entry decodes to q exactly when q is decodable and the entry is Encode(q) followed by zero or more separators (both directions) |
| QuoteCodec.DecodeSound | app/src/main/java/com/example/winquote/SavedQuotesActivity.java:56-58 | an entry that decodes to q is Encode(q) followed by zero or more separators |
| QuoteCodec.DecodeComplete | app/src/main/java/com/example/winquote/SavedQuotesActivity.java:56-58 | Encode(q) for a decodable q, followed by zero or more separators, decodes to q |
| QuoteCodec.DecodeEncode | app/src/main/java/com/example/winquote/SavedQuotesActivity.java:56-58 | round trip: a quote with separator-free fields and a non-empty author loads back as itself |
| QuoteCodec.DecodeIgnoresTrailingSeps | app/src/main/java/com/example/winquote/SavedQuotesActivity.java:56-58 | trailing separators after an encoded quote are ignored on load, and such an entry differs from the quote's encoding |
| QuoteCodec.ReencodeIffNoTrailingSep | app/src/main/java/com/example/winquote/SavedQuotesActivity.java:78-79 | a loaded quote re-encodes to its own entry exactly when the entry does not end in a separator |
| QuoteCodec.EncodeInjective | app/src/main/java/com/example/winquote/MainActivity.java:242 | quotes with separator-free fields share a stored entry only if they are equal |
| QuoteCodec.DecodeDropsEmptyAuthor | app/src/main/java/com/example/winquote/SavedQuotesActivity.java:56-57 | an entry made of a separator-free text and a trailing separator (empty author) is dropped on load |
| QuoteCodec.DecodeRejectsSeparatorInField | app/src/main/java/com/example/winquote/SavedQuotesActivity.java:56-57 | a quote whose text or author holds the separator never loads back as itself |
| QuoteCodec.DecodeDropsPlaceholder | app/src/main/java/com/example/winquote/SavedQuotesActivity.java:56-57 | the placeholder entry `""` is dropped on load |
| QuoteCodec.DecodeKeepsEmptyText | app/src/main/java/com/example/winquote/SavedQuotesActivity.java:56-58 | an entry made of a separator then a separator-free, non-empty author loads with an empty text |
| QuoteCodec.TrailingSeparatorExample | app/src/main/java/com/example/winquote/SavedQuotesActivity.java:56-58 | the entry a, b with a trailing separator loads as ("a","b"), which re-encodes to a different string |
| Format.QuoteLine | app/src/main/java/com/example/winquote/SavedQuotesAdapter.java:37 | the displayed quote is the text wrapped in double quotes |
| Format.AuthorLine | app/src/main/java/com/example/winquote/SavedQuotesAdapter.java:38 | the displayed author is the author prefixed with "- " |
| Format.ShareText | app/src/main/java/com/example/winquote/MainActivity.java:262-263 | the share text is the quote line, a blank line, the author line, and the app signature |
| Format.DisplayLinesInjective | app/src/main/java/com/example/winquote/MainActivity.java:164-165 | equal display lines mean equal quote text and author |
| Format.NatToDecimal | app/src/main/java/com/example/winquote/MainActivity.java:200 | the rendering of a status code is a non-empty digit string without leading zeros |
| Format.DecimalRoundTrip | app/src/main/java/com/example/winquote/MainActivity.java:200 | reading the rendered digits back gives the number |
| Format.IntToString | app/src/main/java/com/example/winquote/MainActivity.java:200 | Java's int rendering starts with '-' exactly for negative values |
| Format.IntToStringInjective | app/src/main/java/com/example/winquote/MainActivity.java:200 | distinct status codes render differently |
| Format.NatToDecimalInjective | app/src/main/java/com/example/winquote/MainActivity.java:200 | distinct naturals have distinct digit strings |
| Format.FetchFailureMessage | app/src/main/java/com/example/winquote/MainActivity.java:198-203 | the message is "Failed to fetch quote. " followed by "HTTP <code>" when a status exists, else by the connectivity hint |
| Format.FetchFailureMessageInjective | app/src/main/java/com/example/winquote/MainActivity.java:198-203 | the message determines the status, and "no response" |
| QuoteStore.Save | app/src/main/java/com/example/winquote/MainActivity.java:233-254 | empty text is refused whatever the author; an existing entry is a duplicate and changes nothing; otherwise only the entry is added; an absent slot reads as {""} |
| QuoteStore.Remove | app/src/main/java/com/example/winquote/SavedQuotesActivity.java:75-83 | the result holds exactly the old entries other than the quote's encoding (an absent slot reads as empty), and it is always written |
| QuoteStore.SaveGrowsByAtMostOne | app/src/main/java/com/example/winquote/MainActivity.java:242-251 | counting an absent slot as `{""}` (the save path's default), a save adds at most one entry, exactly one when it succeeds |
| QuoteStore.SaveTwiceIsDuplicate | app/src/main/java/com/example/winquote/MainActivity.java:242-245 | saving the same quote with non-empty text twice reports a duplicate the second time and changes nothing |
| QuoteStore.SaveIgnoresAuthorWhenEmpty | app/src/main/java/com/example/winquote/MainActivity.java:234-237 | with empty text the outcome is "nothing to save" and the slot is unchanged, whatever the author |
| QuoteStore.FirstSaveKeepsPlaceholder | app/src/main/java/com/example/winquote/MainActivity.java:239-247 | the first save into an absent slot writes {"", entry} |
| QuoteStore.RemoveAbsentAndIdempotent | app/src/main/java/com/example/winquote/SavedQuotesActivity.java:75-83 | removing an absent entry changes no entry; removing twice equals removing once |
| QuoteStore.RemoveUndoesSave | app/src/main/java/com/example/winquote/SavedQuotesActivity.java:78-79 | removing a quote just saved into a present slot restores the slot |
| StoreHistory.ApplyDecides | app/src/main/java/com/example/winquote/MainActivity.java:239-251 | one save or remove keeps or drops an entry other than the `""` placeholder exactly as it decides it, and leaves the other such entries alone |
| StoreHistory.MembershipFollowsLastDecision | app/src/main/java/com/example/winquote/SavedQuotesActivity.java:74-86 | after any sequence of saves and removes, an entry other than the `""` placeholder is stored exactly when the last operation on it was a save (or none touched it and it was stored before) |
| StoreHistory.ListedIffLastSaved | app/src/main/java/com/example/winquote/SavedQuotesActivity.java:49-63 | with decodable quotes from an absent slot, a quote is listed exactly when it was saved and not removed afterwards |
| StoreHistory.ListedAtMostOnce | app/src/main/java/com/example/winquote/SavedQuotesActivity.java:55-59 | under the same conditions no quote is listed twice |
| SavedList.CollectMembership | app/src/main/java/com/example/winquote/SavedQuotesActivity.java:55-59 | for any per-entry reader, the collected list holds x exactly when some entry reads as x |
| SavedList.CollectCount | app/src/main/java/com/example/winquote/SavedQuotesActivity.java:55-59 | for any per-entry reader and duplicate-free order, x occurs in the list once per entry reading as x |
| SavedList.CollectLength | app/src/main/java/com/example/winquote/SavedQuotesActivity.java:55-59 | for any per-entry reader and duplicate-free order, the list has one element per entry that reads |
| SavedList.DecodeAllMembership | app/src/main/java/com/example/winquote/SavedQuotesActivity.java:53-59 | the saved-quotes list holds q exactly when some stored entry decodes to q |
| SavedList.EnumerationSize | app/src/main/java/com/example/winquote/SavedQuotesActivity.java:55 | iterating the stored set visits as many entries as the set has |
| SavedList.DecodeAllCount | app/src/main/java/com/example/winquote/SavedQuotesActivity.java:55-59 | each stored entry decoding to q contributes exactly one copy of q |
| SavedList.DecodeAllLength | app/src/main/java/com/example/winquote/SavedQuotesActivity.java:55-59 | the list has one element per stored entry that decodes |
| SavedList.LoadSavedQuotes | app/src/main/java/com/example/winquote/SavedQuotesActivity.java:49-63 | the list is replaced by the decoded entries in some iteration order of the set, at most as many as the set has, holding exactly the quotes some entry decodes to |
| SavedList.Bind | app/src/main/java/com/example/winquote/SavedQuotesAdapter.java:34-53 | a row shows the quote's display lines, shares its share text, and deletes exactly the bound quote |
| SavedList.RowsCoverList | app/src/main/java/com/example/winquote/SavedQuotesAdapter.java:34-58 | binding every position below `ItemCount` yields delete targets that are exactly the loaded quotes, in order |
| SavedList.ItemCountOfLoad | app/src/main/java/com/example/winquote/SavedQuotesAdapter.java:55-58 | the item count is the number of stored entries that decode, at most the set's size |
| SavedList.RemoveQuote | app/src/main/java/com/example/winquote/SavedQuotesActivity.java:74-86 | the slot loses exactly the quote's encoding; after the reload a quote is listed exactly when some other entry still decodes to it |
| SavedList.DeleteRow | app/src/main/java/com/example/winquote/SavedQuotesAdapter.java:47-51 | a row's delete removes the quote bound at that position, then reloads |
| SavedList.TrailingSeparatorEntrySurvivesDelete | app/src/main/java/com/example/winquote/SavedQuotesActivity.java:78-85 | in a store holding only an entry with trailing separators, that entry is listed as its quote, and deleting that quote leaves the entry in place |
| SavedList.TrailingSeparatorEntryNeverDeleted | app/src/main/java/com/example/winquote/SavedQuotesActivity.java:74-86 | in any store, an entry made of a decodable quote's encoding and one or more trailing separators decodes to that quote and is still stored after the quote is deleted |
| SavedList.TrailingSeparatorVariantListedTwice | app/src/main/java/com/example/winquote/SavedQuotesActivity.java:55-59 | in a store holding only an encoded quote and the same entry with a trailing separator, that quote appears exactly twice |
| SavedList.TrailingSeparatorVariantListedAtLeastTwice | app/src/main/java/com/example/winquote/SavedQuotesActivity.java:55-59 | in any store holding both an encoded quote and the same entry with a trailing separator, that quote appears at least twice |
| SavedList.CollectAtLeastTwo | app/src/main/java/com/example/winquote/SavedQuotesActivity.java:55-59 | for any per-entry reader, two distinct stored entries that read as the same value put it in the list at least twice, whatever else is stored |
| SavedList.CollectTwoAlike | app/src/main/java/com/example/winquote/SavedQuotesActivity.java:55-59 | for any per-entry reader, two distinct entries that read as the same value, and nothing else, give a list holding that value twice |
| SavedList.FetchedQuoteIsListedAsShown | app/src/main/java/com/example/winquote/SavedQuotesAdapter.java:35-62 | a valid fetched quote whose text and author hold no separator, once saved, has a row showing the main screen's lines and sharing the main screen's share text |
| MainScreen.ResponseOutcome | app/src/main/java/com/example/winquote/MainActivity.java:156-177 | an empty array gives "no quotes"; a non-object first element is a parse error; non-empty `q` and `a` show the quote; anything else is invalid data |
| MainScreen.ShowError | app/src/main/java/com/example/winquote/MainActivity.java:278-285 | reporting an error shows a toast, hides the progress bar and re-enables refresh; nothing else changes |
| MainScreen.FetchNewQuote | app/src/main/java/com/example/winquote/MainActivity.java:132-143 | without connectivity an error is shown and the progress bar hidden with refresh enabled; otherwise exactly one request is issued, refresh is disabled and the progress bar shown; the quote fields and views never change |
| MainScreen.OnResponse | app/src/main/java/com/example/winquote/MainActivity.java:152-182 | an object at element 0 overwrites the current quote and author even when the outcome is an error; views change only when a quote is shown; refresh always ends enabled |
| MainScreen.OnErrorResponse | app/src/main/java/com/example/winquote/MainActivity.java:186-208 | a transport failure shows the failure message, leaves quote state alone and re-enables refresh |
| MainScreen.ActionError | app/src/main/java/com/example/winquote/MainActivity.java:278-285 | save and share errors show a toast; as written they also enable refresh and hide the progress bar and change nothing else, while the corrected variant changes nothing |
| MainScreen.SaveCurrentQuote | app/src/main/java/com/example/winquote/MainActivity.java:233-254 | save goes to the store with the current fields, and "no quote", "already saved" and "saved" get distinct messages; a successful save leaves the screen alone, and as written the two error paths enable refresh and hide the progress bar |
| MainScreen.ShareCurrentQuote | app/src/main/java/com/example/winquote/MainActivity.java:256-263 | share is refused while the current quote is empty, and as written the refusal enables refresh and hides the progress bar; otherwise it hands over the share text and changes nothing |
| MainScreen.Dispatch | app/src/main/java/com/example/winquote/MainActivity.java:102-130 | both callbacks end with refresh enabled; save and share issue no requests |
| MainScreen.Launch | app/src/main/java/com/example/winquote/MainActivity.java:61-73 | creation starts from empty fields and issues one request when connected |
| MainScreen.LaunchStartsSingleFlight | app/src/main/java/com/example/winquote/MainActivity.java:56-72 | right after creation refresh is disabled exactly while the initial request runs, so both invariants hold |
| MainScreen.OutcomeMessage | app/src/main/java/com/example/winquote/MainActivity.java:166-177 | invalid data, an empty response and a parse error each get their own message, and the message identifies the outcome |
| MainScreen.StepKeepsRefreshDisabledOnlyWhileLoading | app/src/main/java/com/example/winquote/MainActivity.java:142-285 | as written, one step of any event the screen can receive keeps refresh disabled only while a request is in flight |
| MainScreen.StepFixedKeepsSingleFlight | app/src/main/java/com/example/winquote/MainActivity.java:278-285 | if save and share errors do not reset the loading state, one step keeps at most one request in flight, with refresh disabled exactly while it runs |
| MainScreen.SaveDuringLaunchAllowsSecondRequest | app/src/main/java/com/example/winquote/MainActivity.java:233-285 | as written, pressing save during the first fetch re-enables refresh, and a second request can start while the first is in flight |
| MainScreen.RunKeepsRefreshDisabledOnlyWhileLoading | app/src/main/java/com/example/winquote/MainActivity.java:142-285 | as written, along any run of events the screen can receive, refresh is disabled only while a request is in flight |
| MainScreen.RunFixedKeepsSingleFlight | app/src/main/java/com/example/winquote/MainActivity.java:278-285 | with the corrected error paths, any run of events from a single-flight screen keeps at most one request in flight, with refresh disabled exactly while it runs |
| MainScreen.FixedRunsKeepSingleFlight | app/src/main/java/com/example/winquote/MainActivity.java:142-285 | with the corrected error paths, every screen reachable from launch has at most one request in flight |
| MainScreen.OnResponseReadsOnlyFirstElement | app/src/main/java/com/example/winquote/MainActivity.java:156-161 | two responses with the same first element have the same effect |
| MainScreen.InvalidResponseSavesUnlistedEntry | app/src/main/java/com/example/winquote/MainActivity.java:160-169 | a quote with no author is reported invalid but still becomes current, and saving it stores the text with a trailing separator, which the saved list never shows when the text holds no separator |

## Left out

- HTTP: the Volley queue, request headers, 15-second timeouts and the two-retry policy are network I/O and timing. A request is represented only by its callback (`ResponseArrived` / `ErrorArrived`).
- JSON parsing by org.json: element 0 arrives already classified as an object with string fields, or as something else. How org.json converts non-string values (for example `null` to `"null"`) is not modelled.
- The connectivity check is a platform service. It is the boolean `connected`.
- SharedPreferences: persistence, the asynchrony of `apply()`, and Android's rule against mutating the returned set are not modelled. The slot is an `Option<set<string>>` read and written atomically.
- Toasts, intents, the share chooser, RecyclerView and ViewHolder wiring, menus, back navigation and logging are not modelled. A toast or share-sheet hand-off is an `Effect` value.
- The text the layout shows before the first quote arrives is not modelled; the views start as `""`.
- Hash-set iteration order is any enumeration of the set. Results are stated as membership and multiset counts.
- `Quote` is not part of this model's source files. It is an immutable (text, author) pair.
- The empty string: some older Android runtimes return an empty array for `"".split(...)`, while the JDK returns `[""]`. The model follows the JDK. Either way the result does not have two pieces, so decoding is unaffected.
- app/build.gradle.kts is build configuration only.

## Findings

| source | as written | input that shows it | evidently intended | confidence | as-written member | corrected member |
|---|---|---|---|---|---|---|
| app/src/main/java/com/example/winquote/MainActivity.java:234-235 | save and share report "No quote to save", "Quote already saved!" and "No quote to share" through `showError`. That also hides the progress bar and re-enables refresh (lines 282-283) while a request may still be in flight. | launch with connectivity, press save before the first response arrives (the current quote is still empty), then press refresh: two requests are in flight | refresh stays disabled while a request is in flight, so at most one fetch runs at a time | medium, not executed | MainScreen.SaveDuringLaunchAllowsSecondRequest | MainScreen.FixedRunsKeepSingleFlight |

=== FILE: format.dfy ===
/** The user-visible strings: the quote and author lines shown on both
    screens, the share text, and the fetch-failure message with its HTTP
    status rendered the way Java renders an `int`. */
module Format {
  import opened Wrappers

  /** Appended to every shared quote. */
  const ShareSignature: string := "\n\nShared via WinQuote App"

  /** The quote text as displayed: wrapped in double quotes. */
  function QuoteLine(text: string): (line: string)
    ensures |line| == |text| + 2
    ensures line[0] == '"' && line[|line| - 1] == '"'
    ensures line[1..|line| - 1] == text
  {
    "\"" + text + "\""
  }

  /** The author as displayed: prefixed with a dash and a space. */
  function AuthorLine(author: string): (line: string)
    ensures |line| == |author| + 2
    ensures line[..2] == "- " && line[2..] == author
  {
    "- " + author
  }

  /** The text handed to the share sheet, from the main screen and from a
      saved-list row alike. */
  function ShareText(text: string, author: string): (share: string)
    ensures share == QuoteLine(text) + "\n\n" + AuthorLine(author) + ShareSignature
  {
    "\"" + text + "\"\n\n- " + author + ShareSignature
  }

  /** Two equal displays show the same quote. */
  lemma DisplayLinesInjective(t1: string, a1: string, t2: string, a2: string)
    requires QuoteLine(t1) == QuoteLine(t2) && AuthorLine(a1) == AuthorLine(a2)
    ensures t1 == t2 && a1 == a2
  {
    assert t1 == QuoteLine(t1)[1..|QuoteLine(t1)| - 1];
    assert a1 == AuthorLine(a1)[2..];
  }

  predicate IsDigits(s: string) {
    forall i :: 0 <= i < |s| ==> '0' <= s[i] <= '9'
  }

  function DigitChar(d: nat): (c: char)
    requires d < 10
    ensures '0' <= c <= '9'
  {
    ('0' as int + d) as char
  }

  function DigitValue(c: char): nat
    requires '0' <= c <= '9'
  {
    c as int - '0' as int
  }

  /** The value a string of decimal digits denotes. */
  function DecimalValue(s: string): nat
    requires IsDigits(s)
    decreases |s|
  {
    if s == [] then 0 else DecimalValue(s[..|s| - 1]) * 10 + DigitValue(s[|s| - 1])
  }

  /** The decimal digits of `n`, most significant first, without leading
      zeros. */
  function NatToDecimal(n: nat): (s: string)
    ensures |s| >= 1 && IsDigits(s)
    ensures |s| > 1 ==> s[0] != '0'
    decreases n
  {
    if n < 10 then [DigitChar(n)] else NatToDecimal(n / 10) + [DigitChar(n % 10)]
  }

  /** Decimal rendering is undone by reading the digits back. */
  lemma {:induction false} DecimalRoundTrip(n: nat)
    ensures DecimalValue(NatToDecimal(n)) == n
    decreases n
  {
    var s := NatToDecimal(n);
    if n >= 10 {
      DecimalRoundTrip(n / 10);
      assert s[..|s| - 1] == NatToDecimal(n / 10);
    }
  }

  /** Java's rendering of an `int` in string concatenation. */
  function IntToString(i: int): (s: string)
    ensures |s| >= 1
    ensures s[0] == '-' <==> i < 0
  {
    if i < 0 then "-" + NatToDecimal(-i) else NatToDecimal(i)
  }

  /** Distinct integers are rendered differently. */
  lemma IntToStringInjective(i: int, j: int)
    requires IntToString(i) == IntToString(j)
    ensures i == j
  {
    if i < 0 {
      assert j < 0;
      var a := NatToDecimal(-i);
      var b := NatToDecimal(-j);
      assert "-" + a == "-" + b;
      assert a == ("-" + a)[1..];
      assert b == ("-" + b)[1..];
      NatToDecimalInjective(-i, -j);
    } else {
      assert j >= 0;
      NatToDecimalInjective(i, j);
    }
  }

  /** Distinct naturals have distinct digit strings. */
  lemma NatToDecimalInjective(m: nat, n: nat)
    requires NatToDecimal(m) == NatToDecimal(n)
    ensures m == n
  {
    DecimalRoundTrip(m);
    DecimalRoundTrip(n);
  }

  const FetchFailurePrefix: string := "Failed to fetch quote. "
  const NoResponseHint: string := "Check your internet connection."

  /** The message for a failed request: the HTTP status when the server
      answered, otherwise a hint about connectivity. */
  function FetchFailureMessage(status: Option<int>): (msg: string)
    ensures |msg| > |FetchFailurePrefix| && msg[..|FetchFailurePrefix|] == FetchFailurePrefix
    ensures status.None? <==> msg[|FetchFailurePrefix|..] == NoResponseHint
    ensures status.Some? ==> msg[|FetchFailurePrefix|..] == "HTTP " + IntToString(status.value)
  {
    FetchFailurePrefix + (if status.Some? then "HTTP " + IntToString(status.value) else NoResponseHint)
  }

  /** The message tells apart every status code, and "no response". */
  lemma FetchFailureMessageInjective(s1: Option<int>, s2: Option<int>)
    requires FetchFailureMessage(s1) == FetchFailureMessage(s2)
    ensures s1 == s2
  {
    var n := |FetchFailurePrefix|;
    if s1.Some? && s2.Some? {
      var m1 := FetchFailureMessage(s1)[n..];
      assert IntToString(s1.value) == m1[5..];
      assert IntToString(s2.value) == m1[5..];
      IntToStringInjective(s1.value, s2.value);
    }
  }
}

=== FILE: java_split.dfy ===
/** Java's `String.split("\\|")` on the saved-quote separator, with the
    semantics of `split(regex, 0)`: cut the string at every separator, then
    drop trailing empty strings -- except that a string containing no
    separator at all comes back as the one-element array `[s]`. */
module JavaSplit {

  /** The character that joins a quote's text and author. */
  const Sep: char := '|'

  predicate NoSep(s: string) {
    Sep !in s
  }

  /** `n` copies of `x`. */
  function Repeat<T>(x: T, n: nat): (r: seq<T>)
    ensures |r| == n
    ensures forall i :: 0 <= i < n ==> r[i] == x
  {
    seq(n, _ => x)
  }

  /** Removes every trailing copy of `pad`: the longest prefix of `xs` that
      does not end in `pad` and after which only `pad` follows. */
  function DropTrailing<T(==)>(xs: seq<T>, pad: T): (r: seq<T>)
    ensures |r| <= |xs| && r == xs[..|r|]
    ensures |r| > 0 ==> r[|r| - 1] != pad
    ensures forall i :: |r| <= i < |xs| ==> xs[i] == pad
    decreases |xs|
  {
    if |xs| > 0 && xs[|xs| - 1] == pad then DropTrailing(xs[..|xs| - 1], pad) else xs
  }

  /** Whatever `DropTrailing` removes is a run of `pad`. */
  lemma DropTrailingLeavesPadding<T>(xs: seq<T>, pad: T)
    ensures xs == DropTrailing(xs, pad) + Repeat(pad, |xs| - |DropTrailing(xs, pad)|)
  {
    var r := DropTrailing(xs, pad);
    var tail := Repeat(pad, |xs| - |r|);
    assert forall i :: 0 <= i < |xs| ==> xs[i] == (r + tail)[i] by {
      forall i | 0 <= i < |xs|
        ensures xs[i] == (r + tail)[i]
      {
        if i >= |r| {
          assert tail[i - |r|] == pad;
        }
      }
    }
  }

  /** Padding a sequence that does not already end in `pad` and dropping the
      padding again gives the sequence back. */
  lemma DropTrailingOfPadded<T>(xs: seq<T>, pad: T, k: nat)
    requires |xs| == 0 || xs[|xs| - 1] != pad
    ensures DropTrailing(xs + Repeat(pad, k), pad) == xs
  {
    var ys := xs + Repeat(pad, k);
    var r := DropTrailing(ys, pad);
    assert |xs| == 0 || ys[|xs| - 1] != pad;
    assert forall i :: |xs| <= i < |ys| ==> ys[i] == pad;
    assert |r| == |xs|;
    assert r == ys[..|xs|] == xs;
  }

  /** The pieces of `s` between separators, empty pieces included: always
      one more piece than `s` has separators. */
  function RawSplit(s: string): (parts: seq<string>)
    ensures |parts| >= 1
    ensures forall i :: 0 <= i < |parts| ==> NoSep(parts[i])
    decreases |s|
  {
    if s == [] then [[]]
    else
      var tail := RawSplit(s[1..]);
      if s[0] == Sep then [[]] + tail
      else [[s[0]] + tail[0]] + tail[1..]
  }

  /** The pieces glued back together with the separator. */
  function Join(parts: seq<string>): string
    requires |parts| >= 1
    decreases |parts|
  {
    if |parts| == 1 then parts[0] else parts[0] + [Sep] + Join(parts[1..])
  }

  /** `String.split("\\|")` with limit 0. */
  function Split(s: string): (parts: seq<string>)
    ensures forall i :: 0 <= i < |parts| ==> NoSep(parts[i])
    ensures NoSep(s) ==> parts == [s]
    ensures !NoSep(s) ==> |parts| == 0 || parts[|parts| - 1] != []
  {
    if NoSep(s) then [s] else DropTrailing(RawSplit(s), [])
  }

  /** A string without separators is one piece. */
  lemma {:induction false} RawSplitNoSep(p: string)
    requires NoSep(p)
    ensures RawSplit(p) == [p]
    decreases |p|
  {
    if p != [] {
      assert NoSep(p[1..]) by {
        assert forall i :: 0 <= i < |p[1..]| ==> p[1..][i] == p[i + 1];
      }
      RawSplitNoSep(p[1..]);
      assert [p[0]] + p[1..] == p;
    }
  }

  /** Splitting distributes over a separator: the pieces of `x | y` are the
      pieces of `x` followed by the pieces of `y`. */
  lemma {:induction false} RawSplitConcat(x: string, y: string)
    ensures RawSplit(x + [Sep] + y) == RawSplit(x) + RawSplit(y)
    decreases |x|
  {
    var s := x + [Sep] + y;
    if x == [] {
      assert s[0] == Sep && s[1..] == y;
    } else {
      assert s[0] == x[0];
      assert s[1..] == x[1..] + [Sep] + y;
      RawSplitConcat(x[1..], y);
    }
  }

  /** Joining the pieces of `s` gives `s` back. */
  lemma {:induction false} JoinRawSplit(s: string)
    ensures Join(RawSplit(s)) == s
    decreases |s|
  {
    if s != [] {
      var tail := RawSplit(s[1..]);
      JoinRawSplit(s[1..]);
      var parts := RawSplit(s);
      if s[0] == Sep {
        assert parts[1..] == tail;
        assert Join(parts) == [] + [Sep] + Join(tail);
      } else if |tail| == 1 {
        assert parts == [[s[0]] + tail[0]];
        assert Join(tail) == tail[0];
      } else {
        assert parts[1..] == tail[1..];
        assert Join(parts) == [s[0]] + tail[0] + [Sep] + Join(tail[1..]);
        assert Join(tail) == tail[0] + [Sep] + Join(tail[1..]);
      }
    }
  }

  /** Splitting a join of separator-free pieces gives the pieces back. */
  lemma {:induction false} RawSplitJoin(parts: seq<string>)
    requires |parts| >= 1
    requires forall i :: 0 <= i < |parts| ==> NoSep(parts[i])
    ensures RawSplit(Join(parts)) == parts
    decreases |parts|
  {
    if |parts| == 1 {
      RawSplitNoSep(parts[0]);
    } else {
      RawSplitConcat(parts[0], Join(parts[1..]));
      RawSplitNoSep(parts[0]);
      RawSplitJoin(parts[1..]);
    }
  }

  /** Trailing separators become trailing empty pieces. */
  lemma {:induction false} RawSplitTrailingSeps(x: string, k: nat)
    ensures RawSplit(x + Repeat(Sep, k)) == RawSplit(x) + Repeat("", k)
    decreases k
  {
    if k > 0 {
      RawSplitTrailingSeps(x, k - 1);
      assert x + Repeat(Sep, k) == (x + Repeat(Sep, k - 1)) + [Sep] + [];
      RawSplitConcat(x + Repeat(Sep, k - 1), []);
      assert RawSplit([]) == [""];
      assert Repeat("", k - 1) + [""] == Repeat("", k);
      assert RawSplit(x) + Repeat("", k - 1) + [""] == RawSplit(x) + Repeat("", k);
    } else {
      assert x + Repeat(Sep, 0) == x;
      assert RawSplit(x) + Repeat("", 0) == RawSplit(x);
    }
  }

  /** A string whose last character is not a separator has a non-empty last
      piece. */
  lemma {:induction false} RawSplitLastNonEmpty(x: string)
    requires |x| > 0 && x[|x| - 1] != Sep
    ensures RawSplit(x)[|RawSplit(x)| - 1] != []
    decreases |x|
  {
    if |x| > 1 {
      assert x[1..][|x[1..]| - 1] == x[|x| - 1];
      RawSplitLastNonEmpty(x[1..]);
    }
  }

  /** Reference definition of Java's split: cut the string with its trailing
      separators removed; a non-empty string made only of separators gives no
      pieces at all. */
  lemma SplitIsRawSplitOfStripped(s: string)
    ensures Split(s) ==
      (if s != [] && DropTrailing(s, Sep) == [] then [] else RawSplit(DropTrailing(s, Sep)))
  {
    var r := DropTrailing(s, Sep);
    DropTrailingLeavesPadding(s, Sep);
    if NoSep(s) {
      assert r == s;
      if s != [] {
        RawSplitNoSep(s);
      }
    } else {
      assert s == r + Repeat(Sep, |s| - |r|);
      if r == [] {
        SplitOfSeparatorsOnly(|s| - |r|);
      } else {
        SplitOfPadded(r, |s| - |r|);
      }
    }
  }

  /** A non-empty run of separators splits into no pieces. */
  lemma SplitOfSeparatorsOnly(k: nat)
    requires k > 0
    ensures DropTrailing(RawSplit(Repeat(Sep, k)), "") == []
  {
    RawSplitTrailingSeps([], k);
    assert [] + Repeat(Sep, k) == Repeat(Sep, k);
    assert RawSplit([]) == [""];
    assert [""] + Repeat("", k) == [] + Repeat("", k + 1);
    DropTrailingOfPadded([], "", k + 1);
  }

  /** Trailing separators after a string that does not end in one are
      dropped by the split. */
  lemma SplitOfPadded(r: string, k: nat)
    requires r != [] && r[|r| - 1] != Sep
    ensures DropTrailing(RawSplit(r + Repeat(Sep, k)), "") == RawSplit(r)
  {
    var parts := RawSplit(r);
    RawSplitTrailingSeps(r, k);
    RawSplitLastNonEmpty(r);
    assert parts[|parts| - 1] != "";
    DropTrailingOfPadded(parts, "", k);
  }
}

=== FILE: main_screen.dfy ===
/** The main screen: the current quote and author, what the two text views
    show, the refresh button and progress bar, and the transitions driven by
    the fetch callbacks and the save, share and refresh buttons. The network
    is abstracted to the parsed response array (or a failure with an optional
    HTTP status); the model also counts requests whose callback has not yet
    run. */
module MainScreen {
  import opened Wrappers
  import opened QuoteCodec
  import Format
  import QuoteStore
  import JavaSplit

  /** An element of the response array: an object whose fields are already
      rendered as strings, or any other JSON value. */
  datatype Json = JsonObject(fields: map<string, string>) | JsonOther

  /** `optString(key, "")`: the field's string, or empty when absent. */
  function OptString(fields: map<string, string>, key: string): string {
    if key in fields then fields[key] else ""
  }

  /** What a successful HTTP response leads to. */
  datatype Outcome = Shown(quote: Quote) | InvalidData | EmptyResponse | ParseError

  /** Decides the outcome from element 0 alone: an empty array, an element
      that is not an object, an object lacking a non-empty `q` or `a`, or a
      quote to show. */
  function ResponseOutcome(response: seq<Json>): (o: Outcome)
    ensures o == EmptyResponse <==> response == []
    ensures o == ParseError <==> response != [] && response[0].JsonOther?
    ensures o.Shown? <==>
              response != [] && response[0].JsonObject? &&
              OptString(response[0].fields, "q") != [] && OptString(response[0].fields, "a") != []
    ensures o.Shown? ==>
              o.quote == Quote(OptString(response[0].fields, "q"), OptString(response[0].fields, "a"))
  {
    if response == [] then EmptyResponse
    else match response[0]
      case JsonOther => ParseError
      case JsonObject(fields) =>
        var q := Quote(OptString(fields, "q"), OptString(fields, "a"));
        if q.text != [] && q.author != [] then Shown(q) else InvalidData
  }

  /** The message shown for each outcome that does not display a quote. */
  function OutcomeMessage(o: Outcome): (m: string)
    requires !o.Shown?
    ensures m == "Invalid quote data received" <==> o.InvalidData?
    ensures m == "No quotes received from server" <==> o.EmptyResponse?
    ensures m == "Error parsing quote data" <==> o.ParseError?
  {
    match o
    case InvalidData => "Invalid quote data received"
    case EmptyResponse => "No quotes received from server"
    case ParseError => "Error parsing quote data"
  }

  datatype Screen = Screen(
    currentQuote: string,
    currentAuthor: string,
    quoteView: string,
    authorView: string,
    refreshEnabled: bool,
    progressVisible: bool,
    pending: nat)   // requests issued whose callback has not yet run

  /** The screen together with the shared preferences slot. */
  datatype App = App(screen: Screen, slot: QuoteStore.Slot)

  /** What the user sees besides the screen itself. */
  datatype Effect = Silent | Toast(message: string) | ShareSheet(text: string)

  datatype StepResult = StepResult(app: App, effect: Effect)

  /** Fields start empty, the refresh button enabled, the progress bar
      hidden, nothing in flight. */
  const InitialScreen: Screen := Screen("", "", "", "", true, false, 0)

  /** Reports an error: a toast, the progress bar hidden and the refresh
      button enabled again. */
  function ShowError(app: App, message: string): (r: StepResult)
    ensures r.effect == Toast(message)
    ensures r.app.screen.refreshEnabled && !r.app.screen.progressVisible
    ensures r.app.slot == app.slot
    ensures r.app.screen.(refreshEnabled := app.screen.refreshEnabled,
                          progressVisible := app.screen.progressVisible) == app.screen
  {
    StepResult(app.(screen := app.screen.(progressVisible := false, refreshEnabled := true)), Toast(message))
  }

  /** Starts a fetch: without connectivity only an error is reported and
      the loading state is reset; otherwise one request is issued and refresh is disabled until it
      completes. */
  function FetchNewQuote(app: App, connected: bool): (r: StepResult)
    ensures r.app.slot == app.slot
    ensures r.app.screen.pending == app.screen.pending + (if connected then 1 else 0)
    ensures connected ==> !r.app.screen.refreshEnabled && r.app.screen.progressVisible && r.effect == Silent
    ensures !connected ==> r.app.screen.refreshEnabled && r.effect == Toast("No internet connection")
    ensures !connected ==> !r.app.screen.progressVisible
    ensures r.app.screen.quoteView == app.screen.quoteView && r.app.screen.authorView == app.screen.authorView
    ensures r.app.screen.currentQuote == app.screen.currentQuote
    ensures r.app.screen.currentAuthor == app.screen.currentAuthor
  {
    if !connected then ShowError(app, "No internet connection")
    else
      StepResult(app.(screen := app.screen.(progressVisible := true, refreshEnabled := false,
                                             pending := app.screen.pending + 1)), Silent)
  }

  /** The success callback. Element 0, when it is an object, overwrites the
      current quote and author before they are checked, so an invalid
      response still replaces them; the views change only for a valid quote.
      Every path ends with refresh enabled. */
  function OnResponse(app: App, response: seq<Json>): (r: StepResult)
    requires app.screen.pending > 0
    ensures r.app.slot == app.slot
    ensures r.app.screen.pending == app.screen.pending - 1
    ensures r.app.screen.refreshEnabled && !r.app.screen.progressVisible
    ensures response != [] && response[0].JsonObject? ==>
              r.app.screen.currentQuote == OptString(response[0].fields, "q") &&
              r.app.screen.currentAuthor == OptString(response[0].fields, "a")
    ensures response == [] || response[0].JsonOther? ==>
              r.app.screen.currentQuote == app.screen.currentQuote &&
              r.app.screen.currentAuthor == app.screen.currentAuthor
    ensures ResponseOutcome(response).Shown? ==>
              r.effect == Silent &&
              r.app.screen.quoteView == Format.QuoteLine(ResponseOutcome(response).quote.text) &&
              r.app.screen.authorView == Format.AuthorLine(ResponseOutcome(response).quote.author)
    ensures !ResponseOutcome(response).Shown? ==>
              r.effect == Toast(OutcomeMessage(ResponseOutcome(response))) &&
              r.app.screen.quoteView == app.screen.quoteView &&
              r.app.screen.authorView == app.screen.authorView
  {
    var s := app.screen.(pending := app.screen.pending - 1);
    var s1 :=
      if response != [] && response[0].JsonObject?
      then s.(currentQuote := OptString(response[0].fields, "q"),
              currentAuthor := OptString(response[0].fields, "a"))
      else s;
    var outcome := ResponseOutcome(response);
    var shown :=
      if outcome.Shown?
      then StepResult(app.(screen := s1.(quoteView := Format.QuoteLine(s1.currentQuote),
                                         authorView := Format.AuthorLine(s1.currentAuthor))), Silent)
      else ShowError(app.(screen := s1), OutcomeMessage(outcome));
    shown.(app := shown.app.(screen := shown.app.screen.(progressVisible := false, refreshEnabled := true)))
  }

  /** The failure callback: the message names the HTTP status when there is
      one; quote state is untouched and refresh is enabled again. */
  function OnErrorResponse(app: App, status: Option<int>): (r: StepResult)
    requires app.screen.pending > 0
    ensures r.app.slot == app.slot
    ensures r.app.screen.pending == app.screen.pending - 1
    ensures r.app.screen.refreshEnabled && !r.app.screen.progressVisible
    ensures r.effect == Toast(Format.FetchFailureMessage(status))
    ensures r.app.screen.currentQuote == app.screen.currentQuote
    ensures r.app.screen.currentAuthor == app.screen.currentAuthor
    ensures r.app.screen.quoteView == app.screen.quoteView
    ensures r.app.screen.authorView == app.screen.authorView
  {
    var shown := ShowError(app.(screen := app.screen.(pending := app.screen.pending - 1)),
                           Format.FetchFailureMessage(status));
    shown.(app := shown.app.(screen := shown.app.screen.(progressVisible := false, refreshEnabled := true)))
  }

  /** How the save and share buttons report their errors. As written they
      call `ShowError`, which also re-enables refresh and hides the progress
      bar; `resetsLoading == false` is the corrected variant that only shows
      the toast. */
  function ActionError(app: App, message: string, resetsLoading: bool): (r: StepResult)
    ensures r.effect == Toast(message)
    ensures r.app.slot == app.slot
    ensures r.app.screen.pending == app.screen.pending
    ensures !resetsLoading ==> r.app == app
    ensures resetsLoading ==> r.app == app.(screen := app.screen.(refreshEnabled := true, progressVisible := false))
  {
    if resetsLoading then ShowError(app, message) else StepResult(app, Toast(message))
  }

  /** The save button: delegates to the store with the current quote and
      author, and reports the three results with distinct messages. */
  function SaveCurrentQuote(app: App, resetsLoading: bool): (r: StepResult)
    ensures r.app.slot == QuoteStore.Save(app.slot, app.screen.currentQuote, app.screen.currentAuthor).slot
    ensures app.screen.currentQuote == [] ==> r.effect == Toast("No quote to save")
    ensures QuoteStore.Save(app.slot, app.screen.currentQuote, app.screen.currentAuthor).result == QuoteStore.AlreadySaved ==>
              r.effect == Toast("Quote already saved!")
    ensures r.effect == Toast("Quote saved successfully!") <==>
              QuoteStore.Save(app.slot, app.screen.currentQuote, app.screen.currentAuthor).result == QuoteStore.Saved
    ensures r.app.screen.currentQuote == app.screen.currentQuote
    ensures r.app.screen.currentAuthor == app.screen.currentAuthor
    ensures r.app.screen.pending == app.screen.pending
    ensures QuoteStore.Save(app.slot, app.screen.currentQuote, app.screen.currentAuthor).result == QuoteStore.Saved ==>
              r.app.screen == app.screen
    ensures QuoteStore.Save(app.slot, app.screen.currentQuote, app.screen.currentAuthor).result != QuoteStore.Saved ==>
              r.app.screen == (if resetsLoading then app.screen.(refreshEnabled := true, progressVisible := false)
                               else app.screen)
  {
    var saved := QuoteStore.Save(app.slot, app.screen.currentQuote, app.screen.currentAuthor);
    match saved.result
    case NothingToSave => ActionError(app, "No quote to save", resetsLoading)
    case AlreadySaved => ActionError(app, "Quote already saved!", resetsLoading)
    case Saved => StepResult(app.(slot := saved.slot), Toast("Quote saved successfully!"))
  }

  /** The share button: refused while the current quote is empty, otherwise
      the share sheet receives the formatted quote and nothing else
      changes. */
  function ShareCurrentQuote(app: App, resetsLoading: bool): (r: StepResult)
    ensures app.screen.currentQuote == [] ==> r.effect == Toast("No quote to share")
    ensures app.screen.currentQuote != [] ==>
              r.app == app &&
              r.effect == ShareSheet(Format.ShareText(app.screen.currentQuote, app.screen.currentAuthor))
    ensures r.app.slot == app.slot && r.app.screen.pending == app.screen.pending
    ensures app.screen.currentQuote == [] ==>
              r.app.screen == (if resetsLoading then app.screen.(refreshEnabled := true, progressVisible := false)
                               else app.screen)
  {
    if app.screen.currentQuote == [] then ActionError(app, "No quote to share", resetsLoading)
    else StepResult(app, ShareSheet(Format.ShareText(app.screen.currentQuote, app.screen.currentAuthor)))
  }

  datatype Event =
    | RefreshClicked(connected: bool)
    | ResponseArrived(response: seq<Json>)
    | ErrorArrived(status: Option<int>)
    | SaveClicked
    | ShareClicked

  /** Events that can reach the screen: a disabled button delivers no
      clicks, and callbacks arrive only for requests in flight. */
  predicate Deliverable(app: App, e: Event) {
    match e
    case RefreshClicked(_) => app.screen.refreshEnabled
    case ResponseArrived(_) => app.screen.pending > 0
    case ErrorArrived(_) => app.screen.pending > 0
    case SaveClicked => true
    case ShareClicked => true
  }

  /** One event, with the save and share error paths as selected. */
  function Dispatch(app: App, e: Event, resetsLoading: bool): (r: StepResult)
    requires Deliverable(app, e)
    ensures e.ResponseArrived? || e.ErrorArrived? ==> r.app.screen.refreshEnabled
    ensures e.SaveClicked? || e.ShareClicked? ==> r.app.screen.pending == app.screen.pending
  {
    match e
    case RefreshClicked(connected) => FetchNewQuote(app, connected)
    case ResponseArrived(response) => OnResponse(app, response)
    case ErrorArrived(status) => OnErrorResponse(app, status)
    case SaveClicked => SaveCurrentQuote(app, resetsLoading)
    case ShareClicked => ShareCurrentQuote(app, resetsLoading)
  }

  /** The screen as written. */
  function Step(app: App, e: Event): StepResult
    requires Deliverable(app, e)
  {
    Dispatch(app, e, true)
  }

  /** The screen with save and share errors leaving the loading state
      alone. */
  function StepFixed(app: App, e: Event): StepResult
    requires Deliverable(app, e)
  {
    Dispatch(app, e, false)
  }

  /** Activity creation: the initial fetch, regardless of the button. */
  function Launch(slot: QuoteStore.Slot, connected: bool): (r: StepResult)
    ensures r.app.screen.pending == (if connected then 1 else 0)
    ensures r.app.screen.refreshEnabled <==> !connected
    ensures r.app.screen.currentQuote == "" && r.app.screen.currentAuthor == ""
    ensures r.app.slot == slot
  {
    FetchNewQuote(App(InitialScreen, slot), connected)
  }

  /** Refresh is disabled only while a request is in flight. */
  predicate RefreshDisabledOnlyWhileLoading(s: Screen) {
    !s.refreshEnabled ==> s.pending > 0
  }

  /** At most one request is in flight, exactly while refresh is disabled. */
  predicate SingleFlight(s: Screen) {
    (s.refreshEnabled <==> s.pending == 0) && s.pending <= 1
  }

  /** The screen after creation satisfies both invariants: refresh is
      disabled exactly while the initial request runs. */
  lemma LaunchStartsSingleFlight(slot: QuoteStore.Slot, connected: bool)
    ensures RefreshDisabledOnlyWhileLoading(Launch(slot, connected).app.screen)
    ensures SingleFlight(Launch(slot, connected).app.screen)
  {
  }

  /** As written, one step keeps refresh disabled only while a request is
      in flight. */
  lemma StepKeepsRefreshDisabledOnlyWhileLoading(app: App, e: Event)
    requires Deliverable(app, e) && RefreshDisabledOnlyWhileLoading(app.screen)
    ensures RefreshDisabledOnlyWhileLoading(Step(app, e).app.screen)
  {
  }

  /** With the corrected error paths, one step keeps at most one request
      in flight, with refresh disabled exactly while it runs. */
  lemma StepFixedKeepsSingleFlight(app: App, e: Event)
    requires Deliverable(app, e) && SingleFlight(app.screen)
    ensures SingleFlight(StepFixed(app, e).app.screen)
  {
  }

  /** Feeds events to the screen one at a time; `None` when an event
      arrives that the screen could not have received in that state. */
  function Run(app: App, events: seq<Event>, resetsLoading: bool): Option<App>
    decreases |events|
  {
    if events == [] then Some(app)
    else if Deliverable(app, events[0]) then
      Run(Dispatch(app, events[0], resetsLoading).app, events[1..], resetsLoading)
    else None
  }

  /** As written, refresh stays disabled only while a request is in flight
      along every run of events. */
  lemma {:induction false} RunKeepsRefreshDisabledOnlyWhileLoading(app: App, events: seq<Event>)
    requires RefreshDisabledOnlyWhileLoading(app.screen)
    ensures Run(app, events, true).Some? ==> RefreshDisabledOnlyWhileLoading(Run(app, events, true).value.screen)
    decreases |events|
  {
    if events != [] && Deliverable(app, events[0]) {
      StepKeepsRefreshDisabledOnlyWhileLoading(app, events[0]);
      RunKeepsRefreshDisabledOnlyWhileLoading(Step(app, events[0]).app, events[1..]);
    }
  }

  /** With the corrected error paths, every screen reachable from launch has
      at most one request in flight, with refresh disabled exactly while it
      runs. */
  lemma {:induction false} FixedRunsKeepSingleFlight(slot: QuoteStore.Slot, connected: bool, events: seq<Event>)
    ensures var r := Run(Launch(slot, connected).app, events, false);
            r.Some? ==> SingleFlight(r.value.screen)
  {
    LaunchStartsSingleFlight(slot, connected);
    RunFixedKeepsSingleFlight(Launch(slot, connected).app, events);
  }

  /** The induction behind `FixedRunsKeepSingleFlight`, from any screen that
      already satisfies the invariant. */
  lemma {:induction false} RunFixedKeepsSingleFlight(app: App, events: seq<Event>)
    requires SingleFlight(app.screen)
    ensures Run(app, events, false).Some? ==> SingleFlight(Run(app, events, false).value.screen)
    decreases |events|
  {
    if events != [] && Deliverable(app, events[0]) {
      StepFixedKeepsSingleFlight(app, events[0]);
      RunFixedKeepsSingleFlight(StepFixed(app, events[0]).app, events[1..]);
    }
  }

  /** As written, the single-flight guarantee fails: saving with no quote
      during the initial fetch re-enables refresh, and a refresh click then
      issues a second request while the first is still in flight. */
  lemma SaveDuringLaunchAllowsSecondRequest(slot: QuoteStore.Slot)
    ensures var loading := Launch(slot, true).app;
            var afterSave := Step(loading, SaveClicked).app;
            && SingleFlight(loading.screen)
            && afterSave.screen.refreshEnabled && afterSave.screen.pending == 1
            && !SingleFlight(afterSave.screen)
            && Deliverable(afterSave, RefreshClicked(true))
            && Step(afterSave, RefreshClicked(true)).app.screen.pending == 2
    ensures var r := Run(Launch(slot, true).app, [SaveClicked, RefreshClicked(true)], true);
            r.Some? && r.value.screen.pending == 2 && !SingleFlight(r.value.screen)
  {
  }

  /** Only element 0 of the response is ever read. */
  lemma OnResponseReadsOnlyFirstElement(app: App, r1: seq<Json>, r2: seq<Json>)
    requires app.screen.pending > 0
    requires r1 != [] && r2 != [] && r1[0] == r2[0]
    ensures OnResponse(app, r1) == OnResponse(app, r2)
  {
    assert ResponseOutcome(r1) == ResponseOutcome(r2);
  }

  /** An object with a quote but no author is reported as invalid, yet it
      replaces the current quote; saving then stores `text + "|"`, an entry
      the saved-quotes screen never lists. */
  lemma InvalidResponseSavesUnlistedEntry(app: App, fields: map<string, string>)
    requires app.screen.pending > 0
    requires "q" in fields && fields["q"] != [] && JavaSplit.NoSep(fields["q"])
    requires "a" !in fields
    ensures var after := OnResponse(app, [JsonObject(fields)]);
            var saved := SaveCurrentQuote(after.app, true);
            && after.effect == Toast("Invalid quote data received")
            && after.app.screen.currentQuote == fields["q"]
            && after.app.screen.currentAuthor == ""
            && Encode(Quote(fields["q"], "")) in QuoteStore.SaveView(saved.app.slot)
            && Decode(Encode(Quote(fields["q"], ""))) == None
  {
    DecodeDropsEmptyAuthor(fields["q"]);
    assert Encode(Quote(fields["q"], "")) == fields["q"] + [JavaSplit.Sep];
  }
}

=== FILE: quote_codec.dfy ===
/** The saved-quote string format: a quote is stored as its text, a `|`, and
    its author, and read back with Java's `split("\\|")`, keeping only entries
    that split into exactly two pieces. */
module QuoteCodec {
  import opened Wrappers
  import opened JavaSplit

  /** An immutable (text, author) pair. */
  datatype Quote = Quote(text: string, author: string)

  /** The quotes that survive a store-and-load cycle unchanged: neither field
      holds the separator and the author is non-empty. */
  predicate Decodable(q: Quote) {
    NoSep(q.text) && NoSep(q.author) && q.author != []
  }

  /** The stored form `text + "|" + author`. */
  function Encode(q: Quote): (e: string)
    ensures !NoSep(e)
    ensures |e| == |q.text| + 1 + |q.author|
    ensures e[..|q.text|] == q.text && e[|q.text|] == Sep && e[|q.text| + 1..] == q.author
  {
    q.text + [Sep] + q.author
  }

  /** Reads one stored entry back: kept only when the Java split yields
      exactly two pieces. */
  function Decode(e: string): (r: Option<Quote>)
    ensures r.Some? ==> Decodable(r.value)
    ensures r.Some? ==> !NoSep(e)
  {
    var parts := Split(e);
    if |parts| == 2 then Some(Quote(parts[0], parts[1])) else None
  }

  /** Exactly which entries decode to `q`: `q` must be decodable, and the
      entry must be `Encode(q)` followed by any number of separators. */
  lemma DecodeIff(e: string, q: Quote)
    ensures Decode(e) == Some(q) <==> Decodable(q) && DropTrailing(e, Sep) == Encode(q)
  {
    if Decode(e) == Some(q) {
      DecodeSound(e, q);
    }
    if Decodable(q) && DropTrailing(e, Sep) == Encode(q) {
      DecodeComplete(e, q);
    }
  }

  /** An entry that decodes is its quote's encoding plus trailing
      separators. */
  lemma DecodeSound(e: string, q: Quote)
    requires Decode(e) == Some(q)
    ensures DropTrailing(e, Sep) == Encode(q)
  {
    var r := DropTrailing(e, Sep);
    SplitIsRawSplitOfStripped(e);
    assert Split(e) == [q.text, q.author];
    assert RawSplit(r) == [q.text, q.author];
    JoinRawSplit(r);
    assert Join([q.text, q.author]) == Encode(q);
  }

  /** A decodable quote's encoding, with trailing separators, decodes to
      it. */
  lemma DecodeComplete(e: string, q: Quote)
    requires Decodable(q) && DropTrailing(e, Sep) == Encode(q)
    ensures Decode(e) == Some(q)
  {
    SplitIsRawSplitOfStripped(e);
    RawSplitConcat(q.text, q.author);
    RawSplitNoSep(q.text);
    RawSplitNoSep(q.author);
    assert RawSplit(Encode(q)) == [q.text, q.author];
    assert Split(e) == [q.text, q.author];
  }

  /** Round trip: a decodable quote is read back as itself. */
  lemma DecodeEncode(q: Quote)
    requires Decodable(q)
    ensures Decode(Encode(q)) == Some(q)
  {
    var e := Encode(q);
    assert e[|e| - 1] == q.author[|q.author| - 1];
    DropTrailingOfPadded(e, Sep, 0);
    assert e + Repeat(Sep, 0) == e;
    DecodeIff(e, q);
  }

  /** Any number of trailing separators after a decodable quote is ignored
      on load. */
  lemma DecodeIgnoresTrailingSeps(q: Quote, k: nat)
    requires Decodable(q)
    ensures Decode(Encode(q) + Repeat(Sep, k)) == Some(q)
    ensures k > 0 ==> Encode(q) != Encode(q) + Repeat(Sep, k)
  {
    var e := Encode(q);
    assert e[|e| - 1] == q.author[|q.author| - 1];
    DropTrailingOfPadded(e, Sep, k);
    DecodeIff(e + Repeat(Sep, k), q);
  }

  /** Re-encoding a loaded quote gives back the stored entry exactly when
      that entry does not end in a separator. */
  lemma ReencodeIffNoTrailingSep(e: string, q: Quote)
    requires Decode(e) == Some(q)
    ensures |e| > 0
    ensures Encode(q) == e <==> e[|e| - 1] != Sep
  {
    DecodeIff(e, q);
    var r := DropTrailing(e, Sep);
    DropTrailingLeavesPadding(e, Sep);
    if e[|e| - 1] != Sep {
      assert |r| == |e|;
      assert r == e;
    }
  }

  /** Two quotes whose fields hold no separator are stored under the same
      entry only if they are equal. */
  lemma EncodeInjective(q1: Quote, q2: Quote)
    requires NoSep(q1.text) && NoSep(q1.author)
    requires NoSep(q2.text) && NoSep(q2.author)
    requires Encode(q1) == Encode(q2)
    ensures q1 == q2
  {
    RawSplitJoin([q1.text, q1.author]);
    RawSplitJoin([q2.text, q2.author]);
    assert Join([q1.text, q1.author]) == Encode(q1);
    assert Join([q2.text, q2.author]) == Encode(q2);
  }

  /** An entry with an empty author, `text + "|"`, is dropped on load. */
  lemma DecodeDropsEmptyAuthor(text: string)
    requires NoSep(text)
    ensures Decode(text + [Sep]) == None
  {
    var e := text + [Sep];
    DropTrailingOfPadded(text, Sep, 1);
    assert e == text + Repeat(Sep, 1);
    if Decode(e).Some? {
      DecodeIff(e, Decode(e).value);
      assert false;
    }
  }

  /** A quote whose text or author holds the separator never loads back as
      itself. */
  lemma DecodeRejectsSeparatorInField(q: Quote)
    requires !NoSep(q.text) || !NoSep(q.author)
    ensures Decode(Encode(q)) != Some(q)
  {
  }

  /** The placeholder entry `""` is dropped on load. */
  lemma DecodeDropsPlaceholder()
    ensures Decode("") == None
  {
    assert NoSep("");
  }

  /** An entry with an empty text, `"|" + author`, loads with an empty text. */
  lemma DecodeKeepsEmptyText(author: string)
    requires NoSep(author) && author != []
    ensures Decode([Sep] + author) == Some(Quote("", author))
  {
    DecodeEncode(Quote("", author));
    assert Encode(Quote("", author)) == [Sep] + author;
  }

  /** `"a|b|"` loads as ("a", "b"), which re-encodes as `"a|b"`. */
  lemma TrailingSeparatorExample()
    ensures Decode("a|b|") == Some(Quote("a", "b"))
    ensures Encode(Quote("a", "b")) != "a|b|"
  {
    DecodeIgnoresTrailingSeps(Quote("a", "b"), 1);
    assert Encode(Quote("a", "b")) + Repeat(Sep, 1) == "a|b|";
  }
}

=== FILE: quote_store.dfy ===
/** The saved-quote collection: one preferences slot holding a set of
    encoded quotes, or nothing before the first write. The main screen adds
    to it and the saved-quotes screen removes from it. */
module QuoteStore {
  import opened Wrappers
  import opened QuoteCodec

  /** The `saved_quotes` slot; None until something has been written. */
  type Slot = Option<set<string>>

  /** The placeholder entry the save path assumes when the slot is absent. */
  const Placeholder: string := ""

  /** The set the save path works on: an absent slot reads as `{""}`. */
  function SaveView(slot: Slot): set<string> {
    slot.GetOr({Placeholder})
  }

  /** The set the load and remove paths work on: an absent slot reads as
      empty. */
  function LoadView(slot: Slot): set<string> {
    slot.GetOr({})
  }

  datatype SaveResult = NothingToSave | AlreadySaved | Saved

  datatype SaveOutcome = SaveOutcome(result: SaveResult, slot: Slot)

  /** Saving the current quote and author: refused when the quote text is
      empty (whatever the author), reported as a duplicate when its entry is
      already stored, and otherwise written back with the entry added. */
  function Save(slot: Slot, text: string, author: string): (r: SaveOutcome)
    ensures r.result == NothingToSave <==> text == []
    ensures r.result == AlreadySaved <==> text != [] && Encode(Quote(text, author)) in SaveView(slot)
    ensures r.result != Saved ==> r.slot == slot
    ensures r.result == Saved ==> r.slot.Some?
    ensures text != [] ==> Encode(Quote(text, author)) in SaveView(r.slot)
    ensures SaveView(slot) <= SaveView(r.slot)
    ensures SaveView(r.slot) - SaveView(slot) <= {Encode(Quote(text, author))}
  {
    if text == [] then SaveOutcome(NothingToSave, slot)
    else
      var saved := SaveView(slot);
      var entry := Encode(Quote(text, author));
      if entry in saved then SaveOutcome(AlreadySaved, slot)
      else SaveOutcome(Saved, Some(saved + {entry}))
  }

  /** Removing a quote: its encoded entry leaves the set, nothing else
      changes, and the slot is always written. */
  function Remove(slot: Slot, q: Quote): (r: Slot)
    ensures r.Some?
    ensures forall e :: e in r.value <==> e in LoadView(slot) && e != Encode(q)
  {
    Some(LoadView(slot) - {Encode(q)})
  }

  /** A new entry grows the set by exactly one; any save grows it by at most
      one. */
  lemma SaveGrowsByAtMostOne(slot: Slot, text: string, author: string)
    ensures |SaveView(Save(slot, text, author).slot)| <= |SaveView(slot)| + 1
    ensures Save(slot, text, author).result == Saved ==>
              |SaveView(Save(slot, text, author).slot)| == |SaveView(slot)| + 1
  {
    var r := Save(slot, text, author);
    var entry := Encode(Quote(text, author));
    if r.result == Saved {
      assert SaveView(r.slot) == SaveView(slot) + {entry};
    }
  }

  /** Saving the same quote twice: the second save is reported as a
      duplicate and changes nothing. */
  lemma SaveTwiceIsDuplicate(slot: Slot, text: string, author: string)
    requires text != []
    ensures var first := Save(slot, text, author);
            Save(first.slot, text, author) == SaveOutcome(AlreadySaved, first.slot)
  {
  }

  /** With an empty quote text the author plays no part. */
  lemma SaveIgnoresAuthorWhenEmpty(slot: Slot, a1: string, a2: string)
    ensures Save(slot, [], a1) == Save(slot, [], a2) == SaveOutcome(NothingToSave, slot)
  {
  }

  /** The first save into an absent slot writes the placeholder along with
      the quote. */
  lemma FirstSaveKeepsPlaceholder(text: string, author: string)
    requires text != []
    ensures Save(None, text, author) ==
            SaveOutcome(Saved, Some({Placeholder, Encode(Quote(text, author))}))
  {
    var entry := Encode(Quote(text, author));
    assert entry != Placeholder;
    assert {Placeholder} + {entry} == {Placeholder, entry};
  }

  /** Removing an absent entry changes no entry; removing twice is removing
      once. */
  lemma RemoveAbsentAndIdempotent(slot: Slot, q: Quote)
    ensures Encode(q) !in LoadView(slot) ==> Remove(slot, q) == Some(LoadView(slot))
    ensures Remove(Remove(slot, q), q) == Remove(slot, q)
  {
    if Encode(q) !in LoadView(slot) {
      assert LoadView(slot) - {Encode(q)} == LoadView(slot);
    }
    assert LoadView(Remove(slot, q)) - {Encode(q)} == LoadView(slot) - {Encode(q)};
  }

  /** Removing a quote just saved into a present slot restores the slot. */
  lemma RemoveUndoesSave(saved: set<string>, text: string, author: string)
    requires Save(Some(saved), text, author).result == Saved
    ensures Remove(Save(Some(saved), text, author).slot, Quote(text, author)) == Some(saved)
  {
    var entry := Encode(Quote(text, author));
    assert (saved + {entry}) - {entry} == saved;
  }
}

=== FILE: saved_list.dfy ===
/** The saved-quotes screen: loading the stored set into a list, the list
    adapter's rows, and deleting a row's quote followed by a reload. The
    stored set is a hash set, so the load order is an arbitrary enumeration
    of it. */
module SavedList {
  import opened Wrappers
  import opened QuoteCodec
  import opened JavaSplit
  import Format
  import QuoteStore
  import MainScreen

  predicate NoDuplicates(xs: seq<string>) {
    forall i, j :: 0 <= i < j < |xs| ==> xs[i] != xs[j]
  }

  lemma NoDuplicatesSnoc(xs: seq<string>, x: string)
    requires NoDuplicates(xs) && x !in xs
    ensures NoDuplicates(xs + [x])
  {
  }

  /** `order` visits every element of `saved` exactly once. */
  ghost predicate Enumerates(order: seq<string>, saved: set<string>) {
    (forall e :: e in order <==> e in saved) && NoDuplicates(order)
  }

  /** An enumeration is as long as the set it enumerates. */
  lemma {:induction false} EnumerationSize(order: seq<string>, saved: set<string>)
    requires Enumerates(order, saved)
    ensures |order| == |saved|
    decreases |order|
  {
    if order != [] {
      var last := order[|order| - 1];
      var init := order[..|order| - 1];
      assert forall e :: e in init <==> e in saved - {last} by {
        forall e
          ensures e in init <==> e in saved - {last}
        {
          if e in init {
            var i :| 0 <= i < |init| && init[i] == e;
            assert order[i] == e;
          }
        }
      }
      EnumerationSize(init, saved - {last});
    }
  }

  /** What one entry adds to the list when read with `read`: its value, or
      nothing. */
  function ReadOne<T>(e: string, read: string -> Option<T>): (items: seq<T>)
    ensures |items| <= 1
  {
    match read(e)
    case Some(x) => [x]
    case None => []
  }

  /** The list built by reading entries in the given order: each entry that
      reads as a value contributes it, in order; the others are skipped. */
  function Collect<T>(order: seq<string>, read: string -> Option<T>): (items: seq<T>)
    ensures |items| <= |order|
    decreases |order|
  {
    if order == [] then [] else Collect(order[..|order| - 1], read) + ReadOne(order[|order| - 1], read)
  }

  /** The entries of `order` that read as `x`. */
  ghost function ReadingAs<T>(order: seq<string>, read: string -> Option<T>, x: T): set<string> {
    set e | e in order && read(e) == Some(x)
  }

  /** The entries of `order` that read as anything. */
  ghost function Readable<T>(order: seq<string>, read: string -> Option<T>): set<string> {
    set e | e in order && read(e).Some?
  }

  /** The collected list holds `x` exactly when some entry reads as `x`. */
  lemma {:induction false} CollectMembership<T>(order: seq<string>, read: string -> Option<T>, x: T)
    ensures x in Collect(order, read) <==> exists e :: e in order && read(e) == Some(x)
    decreases |order|
  {
    if order != [] {
      var init := order[..|order| - 1];
      var last := order[|order| - 1];
      CollectMembership(init, read, x);
      assert order == init + [last];
      if x in Collect(init, read) {
        var e :| e in init && read(e) == Some(x);
        assert e in order;
      }
      if exists e :: e in order && read(e) == Some(x) {
        var e :| e in order && read(e) == Some(x);
        assert e in init || e == last;
      }
    }
  }

  /** Appending an entry adds it to the entries reading as `x` exactly when
      it reads as `x`. */
  lemma ReadingAsSnoc<T>(init: seq<string>, last: string, read: string -> Option<T>, x: T)
    requires last !in init
    ensures |ReadingAs(init + [last], read, x)| ==
            |ReadingAs(init, read, x)| + (if read(last) == Some(x) then 1 else 0)
  {
    var before := ReadingAs(init, read, x);
    assert forall e :: e in init + [last] <==> e in init || e == last;
    if read(last) == Some(x) {
      assert ReadingAs(init + [last], read, x) == before + {last};
    } else {
      assert ReadingAs(init + [last], read, x) == before;
    }
  }

  /** Every entry reading as `x` contributes exactly one copy of `x`. */
  lemma {:induction false} CollectCount<T>(order: seq<string>, read: string -> Option<T>, x: T)
    requires NoDuplicates(order)
    ensures multiset(Collect(order, read))[x] == |ReadingAs(order, read, x)|
    decreases |order|
  {
    if order != [] {
      var last := order[|order| - 1];
      var init := order[..|order| - 1];
      assert order == init + [last];
      assert NoDuplicates(init);
      assert last !in init;
      CollectCount(init, read, x);
      ReadingAsSnoc(init, last, read, x);
      var rest := Collect(init, read);
      assert multiset(Collect(order, read)) == multiset(rest) + multiset(ReadOne(last, read));
      assert multiset(ReadOne(last, read))[x] == if read(last) == Some(x) then 1 else 0;
    }
  }

  /** The collected list has one element per entry that reads. */
  lemma {:induction false} CollectLength<T>(order: seq<string>, read: string -> Option<T>)
    requires NoDuplicates(order)
    ensures |Collect(order, read)| == |Readable(order, read)|
    decreases |order|
  {
    if order != [] {
      var last := order[|order| - 1];
      var init := order[..|order| - 1];
      assert order == init + [last];
      assert NoDuplicates(init);
      assert last !in init;
      CollectLength(init, read);
      ReadableSnoc(init, last, read);
    }
  }

  /** Appending an entry adds it to the readable entries exactly when it
      reads. */
  lemma ReadableSnoc<T>(init: seq<string>, last: string, read: string -> Option<T>)
    requires last !in init
    ensures |Readable(init + [last], read)| == |Readable(init, read)| + (if read(last).Some? then 1 else 0)
  {
    var before := Readable(init, read);
    assert forall e :: e in init + [last] <==> e in init || e == last;
    if read(last).Some? {
      assert Readable(init + [last], read) == before + {last};
    } else {
      assert Readable(init + [last], read) == before;
    }
  }

  /** The saved-quotes list for a given iteration order of the stored set. */
  function DecodeAll(order: seq<string>): seq<Quote> {
    Collect(order, Decode)
  }

  /** The list holds `q` exactly when some stored entry decodes to `q`. */
  lemma DecodeAllMembership(order: seq<string>, q: Quote)
    ensures q in DecodeAll(order) <==> exists e :: e in order && Decode(e) == Some(q)
  {
    CollectMembership(order, Decode, q);
  }

  /** Every stored entry that decodes to `q` contributes exactly one copy of
      `q` to the list. */
  lemma DecodeAllCount(order: seq<string>, q: Quote)
    requires NoDuplicates(order)
    ensures multiset(DecodeAll(order))[q] == |set e | e in order && Decode(e) == Some(q)|
  {
    CollectCount(order, Decode, q);
    assert ReadingAs(order, Decode, q) == set e | e in order && Decode(e) == Some(q);
  }

  /** The list has one row per stored entry that decodes. */
  lemma DecodeAllLength(order: seq<string>)
    requires NoDuplicates(order)
    ensures |DecodeAll(order)| == |set e | e in order && Decode(e).Some?|
  {
    CollectLength(order, Decode);
    assert Readable(order, Decode) == set e | e in order && Decode(e).Some?;
  }

  /** Loading: the list is replaced wholesale by the decodable entries of
      the stored set (an absent slot reads as empty), visited in some
      order. */
  method LoadSavedQuotes(slot: QuoteStore.Slot) returns (quotes: seq<Quote>, ghost order: seq<string>)
    ensures Enumerates(order, QuoteStore.LoadView(slot))
    ensures quotes == DecodeAll(order)
    ensures |quotes| <= |QuoteStore.LoadView(slot)|
    ensures forall q :: q in quotes <==> exists e :: e in QuoteStore.LoadView(slot) && Decode(e) == Some(q)
  {
    var saved := QuoteStore.LoadView(slot);
    var rest := saved;
    quotes := [];
    order := [];
    while rest != {}
      invariant rest <= saved
      invariant forall e :: e in order <==> e in saved - rest
      invariant NoDuplicates(order)
      invariant quotes == DecodeAll(order)
      decreases rest
    {
      var e :| e in rest;
      NoDuplicatesSnoc(order, e);
      assert DecodeAll(order + [e]) == DecodeAll(order) + ReadOne(e, Decode) by {
        assert (order + [e])[..|order|] == order;
      }
      order := order + [e];
      match Decode(e) {
        case Some(q) => quotes := quotes + [q];
        case None =>
      }
      rest := rest - {e};
    }
    EnumerationSize(order, saved);
    forall q
      ensures q in quotes <==> exists e :: e in saved && Decode(e) == Some(q)
    {
      DecodeAllMembership(order, q);
    }
  }

  /** The adapter's row count. */
  function ItemCount(quotes: seq<Quote>): nat {
    |quotes|
  }

  /** A bound row: the two display lines, the text its share button sends,
      and the quote its delete button passes to `RemoveQuote`. */
  datatype Row = Row(quoteLine: string, authorLine: string, shareText: string, deleteTarget: Quote)

  /** Binding the row at `position`; the list view asks only for positions
      below the item count. */
  function Bind(quotes: seq<Quote>, position: nat): (row: Row)
    requires position < ItemCount(quotes)
    ensures row.deleteTarget == quotes[position]
    ensures row.quoteLine == Format.QuoteLine(row.deleteTarget.text)
    ensures row.authorLine == Format.AuthorLine(row.deleteTarget.author)
    ensures row.shareText == Format.ShareText(row.deleteTarget.text, row.deleteTarget.author)
  {
    var q := quotes[position];
    Row(Format.QuoteLine(q.text), Format.AuthorLine(q.author), Format.ShareText(q.text, q.author), q)
  }

  /** The rows the adapter reports, bound in turn, show exactly the loaded
      quotes in order. */
  lemma RowsCoverList(quotes: seq<Quote>)
    ensures seq(ItemCount(quotes), i requires 0 <= i < ItemCount(quotes) => Bind(quotes, i).deleteTarget) == quotes
  {
  }

  /** The row count is the number of stored entries that decode, at most
      the size of the stored set. */
  lemma ItemCountOfLoad(order: seq<string>, saved: set<string>)
    requires Enumerates(order, saved)
    ensures ItemCount(DecodeAll(order)) == |set e | e in saved && Decode(e).Some?|
    ensures ItemCount(DecodeAll(order)) <= |saved|
  {
    DecodeAllLength(order);
    assert (set e | e in saved && Decode(e).Some?) == (set e | e in order && Decode(e).Some?);
    EnumerationSize(order, saved);
  }

  /** Deleting a quote: its encoded entry is removed from the slot and the
      list is reloaded; a quote stays listed exactly when another entry
      still decodes to it. */
  method RemoveQuote(slot: QuoteStore.Slot, q: Quote)
    returns (newSlot: QuoteStore.Slot, quotes: seq<Quote>, ghost order: seq<string>)
    ensures newSlot == QuoteStore.Remove(slot, q)
    ensures Enumerates(order, QuoteStore.LoadView(newSlot)) && quotes == DecodeAll(order)
    ensures forall p :: p in quotes <==>
              exists e :: e in QuoteStore.LoadView(slot) && e != Encode(q) && Decode(e) == Some(p)
  {
    newSlot := QuoteStore.Remove(slot, q);
    quotes, order := LoadSavedQuotes(newSlot);
  }

  /** The delete button of the row at `position` removes exactly that row's
      quote. */
  method DeleteRow(slot: QuoteStore.Slot, quotes: seq<Quote>, position: nat)
    returns (newSlot: QuoteStore.Slot, reloaded: seq<Quote>, ghost order: seq<string>)
    requires position < ItemCount(quotes)
    ensures newSlot == QuoteStore.Remove(slot, quotes[position])
    ensures Enumerates(order, QuoteStore.LoadView(newSlot)) && reloaded == DecodeAll(order)
  {
    var row := Bind(quotes, position);
    newSlot, reloaded, order := RemoveQuote(slot, row.deleteTarget);
  }

  /** An entry with trailing separators (such as `"a|b|"`) is listed but
      cannot be deleted: deleting its quote removes a different string, and
      the reload shows the quote again. */
  lemma TrailingSeparatorEntrySurvivesDelete(q: Quote, k: nat, order: seq<string>)
    requires Decodable(q) && k > 0
    requires Enumerates(order, {Encode(q) + Repeat(Sep, k)})
    ensures DecodeAll(order) == [q]
    ensures QuoteStore.Remove(Some({Encode(q) + Repeat(Sep, k)}), q) == Some({Encode(q) + Repeat(Sep, k)})
  {
    var e := Encode(q) + Repeat(Sep, k);
    DecodeIgnoresTrailingSeps(q, k);
    EnumerationSize(order, {e});
    assert order == [e] by {
      assert order[0] in {e};
    }
    assert order[..0] == [];
    assert {e} - {Encode(q)} == {e};
  }

  /** In any store, an entry with trailing separators is listed as its quote
      and survives the delete of that quote. */
  lemma TrailingSeparatorEntryNeverDeleted(slot: QuoteStore.Slot, q: Quote, k: nat)
    requires Decodable(q) && k > 0
    requires Encode(q) + Repeat(Sep, k) in QuoteStore.LoadView(slot)
    ensures Decode(Encode(q) + Repeat(Sep, k)) == Some(q)
    ensures Encode(q) + Repeat(Sep, k) in QuoteStore.LoadView(QuoteStore.Remove(slot, q))
  {
    DecodeIgnoresTrailingSeps(q, k);
  }

  /** Two distinct entries that read alike, and nothing else, put two copies
      of their value in the list. */
  lemma CollectTwoAlike<T>(order: seq<string>, read: string -> Option<T>, e1: string, e2: string, x: T)
    requires e1 != e2 && read(e1) == Some(x) && read(e2) == Some(x)
    requires Enumerates(order, {e1, e2})
    ensures multiset(Collect(order, read))[x] == 2
  {
    EnumerationSize(order, {e1, e2});
    assert |order| == 2;
    assert order[0] in {e1, e2} && order[1] in {e1, e2};
    assert order[..1] == [order[0]] && order[..1][..0] == [];
    assert Collect(order, read) == [x, x];
  }

  /** Two entries that decode alike (such as `"a|b"` and `"a|b|"`) give two
      identical rows. */
  lemma TrailingSeparatorVariantListedTwice(q: Quote, order: seq<string>)
    requires Decodable(q)
    requires Enumerates(order, {Encode(q), Encode(q) + [Sep]})
    ensures multiset(DecodeAll(order))[q] == 2
  {
    DecodeEncode(q);
    DecodeIgnoresTrailingSeps(q, 1);
    assert Encode(q) + [Sep] == Encode(q) + Repeat(Sep, 1);
    assert |Encode(q) + [Sep]| != |Encode(q)|;
    CollectTwoAlike(order, Decode, Encode(q), Encode(q) + [Sep], q);
  }

  /** In any store, an encoded quote and the same entry with a trailing
      separator put that quote in the list at least twice. */
  lemma TrailingSeparatorVariantListedAtLeastTwice(q: Quote, order: seq<string>, saved: set<string>)
    requires Decodable(q)
    requires Enumerates(order, saved)
    requires Encode(q) in saved && Encode(q) + [Sep] in saved
    ensures multiset(DecodeAll(order))[q] >= 2
  {
    DecodeEncode(q);
    DecodeIgnoresTrailingSeps(q, 1);
    assert Encode(q) + [Sep] == Encode(q) + Repeat(Sep, 1);
    assert |Encode(q) + [Sep]| != |Encode(q)|;
    CollectAtLeastTwo(order, Decode, saved, Encode(q), Encode(q) + [Sep], q);
  }

  /** Two distinct stored entries that read as the same value put at least
      two copies of it in the list, whatever else is stored. */
  lemma CollectAtLeastTwo<T>(order: seq<string>, read: string -> Option<T>, saved: set<string>,
                             e1: string, e2: string, x: T)
    requires e1 != e2 && read(e1) == Some(x) && read(e2) == Some(x)
    requires Enumerates(order, saved) && e1 in saved && e2 in saved
    ensures multiset(Collect(order, read))[x] >= 2
  {
    CollectCount(order, read, x);
    assert e1 in ReadingAs(order, read, x) && e2 in ReadingAs(order, read, x);
    SubsetSize({e1, e2}, ReadingAs(order, read, x));
  }

  /** A subset is no larger than its superset. */
  lemma {:induction false} SubsetSize<T>(a: set<T>, b: set<T>)
    requires a <= b
    ensures |a| <= |b|
    decreases |a|
  {
    if a != {} {
      var x :| x in a;
      SubsetSize(a - {x}, b - {x});
    }
  }

  /** A valid fetched quote, once saved, is listed on the saved-quotes
      screen in a row that shows exactly what the main screen showed and
      shares exactly what the main screen shares. */
  lemma FetchedQuoteIsListedAsShown(app: MainScreen.App, fields: map<string, string>, order: seq<string>)
    requires app.screen.pending > 0
    requires Decodable(Quote(MainScreen.OptString(fields, "q"), MainScreen.OptString(fields, "a")))
    requires MainScreen.OptString(fields, "q") != []
    requires Enumerates(order, QuoteStore.LoadView(
               MainScreen.SaveCurrentQuote(MainScreen.OnResponse(app, [MainScreen.JsonObject(fields)]).app, true).app.slot))
    ensures var shown := MainScreen.OnResponse(app, [MainScreen.JsonObject(fields)]).app;
            var share := MainScreen.ShareCurrentQuote(shown, true).effect;
            exists p :: 0 <= p < ItemCount(DecodeAll(order)) &&
              Bind(DecodeAll(order), p) ==
                Row(shown.screen.quoteView, shown.screen.authorView, share.text,
                    Quote(shown.screen.currentQuote, shown.screen.currentAuthor))
  {
    var q := Quote(MainScreen.OptString(fields, "q"), MainScreen.OptString(fields, "a"));
    var shown := MainScreen.OnResponse(app, [MainScreen.JsonObject(fields)]).app;
    var saved := MainScreen.SaveCurrentQuote(shown, true).app.slot;
    assert MainScreen.ResponseOutcome([MainScreen.JsonObject(fields)]) == MainScreen.Shown(q);
    assert Encode(q) in QuoteStore.LoadView(saved);
    DecodeEncode(q);
    assert Encode(q) in order;
    var quotes := DecodeAll(order);
    DecodeAllMembership(order, q);
    assert q in quotes;
    var p :| 0 <= p < |quotes| && quotes[p] == q;
    assert Bind(quotes, p) == Row(shown.screen.quoteView, shown.screen.authorView,
                                  Format.ShareText(q.text, q.author), q);
  }
}

=== FILE: store_history.dfy ===
/** Sequences of saves and deletes against the saved-quote slot, and what the
    saved-quotes screen lists afterwards. */
module StoreHistory {
  import opened Wrappers
  import opened QuoteCodec
  import opened QuoteStore
  import SavedList

  /** A save from the main screen or a delete from the saved-quotes
      screen. */
  datatype StoreOp = Add(quote: Quote) | Delete(quote: Quote)

  function Apply(slot: Slot, op: StoreOp): Slot {
    match op
    case Add(q) => Save(slot, q.text, q.author).slot
    case Delete(q) => Remove(slot, q)
  }

  function ApplyAll(slot: Slot, ops: seq<StoreOp>): Slot
    decreases |ops|
  {
    if ops == [] then slot else Apply(ApplyAll(slot, ops[..|ops| - 1]), ops[|ops| - 1])
  }

  /** An operation decides entry `e` when it deletes the quote stored under
      `e`, or saves a quote with non-empty text stored under `e`. */
  predicate Decides(op: StoreOp, e: string) {
    Encode(op.quote) == e && (op.Delete? || op.quote.text != [])
  }

  /** Some(true) when the last operation deciding `e` is a save, Some(false)
      when it is a delete, None when no operation decides `e`. */
  function LastDecision(ops: seq<StoreOp>, e: string): Option<bool>
    decreases |ops|
  {
    if ops == [] then None
    else if Decides(ops[|ops| - 1], e) then Some(ops[|ops| - 1].Add?)
    else LastDecision(ops[..|ops| - 1], e)
  }

  /** One operation keeps or drops `e` exactly as it decides it, and leaves
      it alone otherwise. */
  lemma ApplyDecides(slot: Slot, op: StoreOp, e: string)
    requires e != Placeholder
    ensures e in LoadView(Apply(slot, op)) <==> if Decides(op, e) then op.Add? else e in LoadView(slot)
  {
    match op
    case Delete(q) =>
    case Add(q) =>
      var r := Save(slot, q.text, q.author);
      if slot.None? {
        assert e !in SaveView(slot);
      }
  }

  /** After any history, a (non-placeholder) entry is stored exactly when
      the last operation deciding it was a save, or, if none decided it,
      when it was stored to begin with. */
  lemma {:induction false} MembershipFollowsLastDecision(slot: Slot, ops: seq<StoreOp>, e: string)
    requires e != Placeholder
    ensures e in LoadView(ApplyAll(slot, ops)) <==> LastDecision(ops, e).GetOr(e in LoadView(slot))
    decreases |ops|
  {
    if ops != [] {
      MembershipFollowsLastDecision(slot, ops[..|ops| - 1], e);
      ApplyDecides(ApplyAll(slot, ops[..|ops| - 1]), ops[|ops| - 1], e);
    }
  }

  /** A save decision comes from a save of a quote stored under `e`. */
  lemma {:induction false} LastSaveHasWitness(ops: seq<StoreOp>, e: string)
    requires LastDecision(ops, e) == Some(true)
    ensures exists i :: 0 <= i < |ops| && ops[i].Add? && Encode(ops[i].quote) == e
    decreases |ops|
  {
    var last := |ops| - 1;
    if !Decides(ops[last], e) {
      LastSaveHasWitness(ops[..last], e);
      var i :| 0 <= i < last && ops[..last][i].Add? && Encode(ops[..last][i].quote) == e;
      assert ops[i] == ops[..last][i];
    }
  }

  /** Starting from an absent slot and using only decodable quotes, every
      stored entry that decodes is the exact encoding of its quote. */
  lemma StoredEntryIsEncoding(ops: seq<StoreOp>, e: string)
    requires forall i :: 0 <= i < |ops| ==> Decodable(ops[i].quote)
    requires e in LoadView(ApplyAll(None, ops)) && Decode(e).Some?
    ensures e == Encode(Decode(e).value)
  {
    DecodeDropsPlaceholder();
    MembershipFollowsLastDecision(None, ops, e);
    LastSaveHasWitness(ops, e);
    var i :| 0 <= i < |ops| && ops[i].Add? && Encode(ops[i].quote) == e;
    DecodeEncode(ops[i].quote);
  }

  /** Starting from an absent slot and using only decodable quotes, the
      saved-quotes screen lists a quote exactly when it is decodable and the
      last operation deciding it was a save. */
  lemma ListedIffLastSaved(ops: seq<StoreOp>, q: Quote, order: seq<string>)
    requires forall i :: 0 <= i < |ops| ==> Decodable(ops[i].quote)
    requires SavedList.Enumerates(order, LoadView(ApplyAll(None, ops)))
    ensures q in SavedList.DecodeAll(order) <==> Decodable(q) && LastDecision(ops, Encode(q)) == Some(true)
  {
    MembershipFollowsLastDecision(None, ops, Encode(q));
    SavedList.DecodeAllMembership(order, q);
    if Decodable(q) && LastDecision(ops, Encode(q)) == Some(true) {
      DecodeEncode(q);
      assert Encode(q) in order;
    }
    if q in SavedList.DecodeAll(order) {
      var e :| e in order && Decode(e) == Some(q);
      StoredEntryIsEncoding(ops, e);
    }
  }

  /** Under the same conditions no quote is listed twice. */
  lemma ListedAtMostOnce(ops: seq<StoreOp>, q: Quote, order: seq<string>)
    requires forall i :: 0 <= i < |ops| ==> Decodable(ops[i].quote)
    requires SavedList.Enumerates(order, LoadView(ApplyAll(None, ops)))
    ensures multiset(SavedList.DecodeAll(order))[q] <= 1
  {
    forall e | e in order && Decode(e) == Some(q)
      ensures e == Encode(q)
    {
      StoredEntryIsEncoding(ops, e);
    }
    SavedList.DecodeAllCount(order, q);
    var matching := set e | e in order && Decode(e) == Some(q);
    assert matching <= {Encode(q)};
    SubsetOfSingleton(matching, Encode(q));
  }

  /** A subset of a one-element set has at most one element. */
  lemma SubsetOfSingleton<T>(s: set<T>, x: T)
    requires s <= {x}
    ensures |s| <= 1
  {
    if x in s {
      assert s == {x};
    } else {
      assert s == {};
    }
  }
}

=== FILE: wrappers.dfy ===
/** The optional-value datatype the rest of the model uses for absent
    preferences slots, missing HTTP status codes and dropped entries. */
module Wrappers {

  datatype Option<+T> = None | Some(value: T) {

    /** Returns the value in Some, or `default` when None. */
    function GetOr(default: T): T {
      match this
      case Some(v) => v
      case None => default
    }
  }
}
